=== FILE: README.md ===
# rq-cli `rqinfo` in Dafny

A model of the rendering and aggregation logic of `rqinfo`, the terminal
monitor of the rq job-queue library. The monitor prints the pending-job
count of each queue with a small bar chart. It lists workers either one
per line or grouped under the queues they listen on. A positional list of
queue names, the filter, restricts both listings. A refresh loop repeats
the chosen view until the user interrupts it.

The backend is not modelled. Queues and workers are plain records. One
`Snapshot` is what `Queue.all()` and `Worker.all()` answer during one
pass. The terminal width and the current time are parameters of a pass.

Modules:

- `Text` covers padding (`pad`, `%-12s`), `%d`, `str.join` and Python's
  string order with `sorted`.
- `Scale` is `get_scale`.
- `Symbols` holds the colourisers and `state_symbol`. Each escape code
  of the colour library is one control character: U+0018 to U+001A open
  dark red, green and yellow, and ESC (U+001B) resets. They sort among
  themselves and against other text as the escape codes do.
- `Backend` holds the queue, worker and snapshot records. It also resolves
  the queue set of a pass.
- `QueueView` is `show_queues`.
- `WorkerView` is `show_workers`: filtering, pruning, the reverse index
  from queue to workers, and sorting.
- `Monitor` holds `show_both`, the choice of renderer in `info`, and
  `refresh` as a method over the finite list of passes that complete
  before the user interrupts.

Behaviour worth noting:

- The placeholder for a queue with no workers is U+2013 (EN DASH).
- There is no scale-0 guard: `get_scale` never returns less than 20.
- With no queues, `max_qname` falls back to 0 and the by-queue listing prints no line, so nothing fails.
- A worker's queue names are a list. A name it lists twice puts the
  worker twice under that queue.
- A negative interval on a terminal makes the sleep call fail after the
  first render.

## Model

| member | source | states |
|---|---|---|
| Text.Pad | rqinfo.py:23-25 | the padded string starts with `s`, has length max(\|s\|, width) and holds only spaces after `s`; a negative width acts by its magnitude |
| Text.PadTrimRoundTrip | rqinfo.py:23-25 | padding loses nothing: trimming trailing spaces gives back any string that does not end in a space |
| Text.NatToString | rqinfo.py:71-80 | `%d` of a count is a non-empty run of digits with no leading zero |
| Text.NatToStringRoundTrip | rqinfo.py:71-80 | `%d` of a count is a run of digits that reads back as that count |
| Text.LexLeTotal | rqinfo.py:122 | Python's string comparison relates any two strings |
| Text.LexLeTransitive | rqinfo.py:122 | Python's string comparison is transitive |
| Text.LexLeAntisymmetric | rqinfo.py:122 | two strings each at most the other are equal |
| Text.Sort | rqinfo.py:122 | `sorted` returns an ordered permutation of its input |
| Text.SortedUnique | rqinfo.py:122 | two ordered permutations of the same strings are equal, so the model's sort yields what `sorted` yields on the same strings |
| Text.Join | rqinfo.py:107-122 | `str.join` of no parts is empty, and otherwise starts with the first part |
| Text.SplitJoinRoundTrip | rqinfo.py:109 | joining comma-free names with commas and splitting on commas gives the names back |
| Scale.FirstAtLeast | rqinfo.py:31-34 | the loop returns a bucket at least `x`, the smallest one when the buckets ascend, and `x` itself when all buckets are below `x` |
| Scale.GetScale | rqinfo.py:28-34 | the scale is at least `x` and at least 20; up to 1000 it is the smallest bucket at least `x`; above 1000 it is `x` |
| Scale.GetScaleMonotone | rqinfo.py:28-34 | a larger maximum never gets a smaller scale |
| Scale.GetScaleSamples | rqinfo.py:28-34 | 20 for every `x` up to 20 (0 included), 1000 on (800, 1000], `x` above 1000 |
| Symbols.Paint | rqinfo.py:18-20 | a coloured string opens with its colour's code, closes with the reset code, and shows the same visible text |
| Symbols.CodesSortLikeEscapes | rqinfo.py:18-20 | the colour stand-ins order as `ESC [31m` < `ESC [32m` < `ESC [33m` < `ESC [39;49;00m`, and against any character outside U+0018 to U+001B as ESC does |
| Symbols.StateSymbol | rqinfo.py:37-45 | `busy` is shown red, `idle` green, every other state verbatim; the visible text is always the state's |
| Backend.CountOf | rqinfo.py:50-61 | a named queue's count is that of the first listed queue of that name, 0 when none is listed |
| Backend.ResolveQueues | rqinfo.py:49-52 | with a filter, one queue per filter name in filter order, repeats kept; without one, every queue |
| QueueView.ChartWidth | rqinfo.py:55-56 | the chart width is min(20, terminal width - 20) |
| QueueView.MaxCount | rqinfo.py:58-63 | `max_count` is at least every count and is one of them, or 0 for no queues |
| QueueView.TotalJobs | rqinfo.py:76-80 | the job total is at least every count and is 0 only when every count is 0 |
| QueueView.BarLength | rqinfo.py:64-70 | for a count at most the scale, the bar has between 0 and max(0, chart width) blocks; none on a narrow terminal |
| QueueView.BarLengthMonotone | rqinfo.py:65-70 | a queue with more jobs never gets a shorter bar |
| QueueView.RawQueueLine | rqinfo.py:73 | every raw queue line reads back as the queue it was printed for, whatever the name |
| QueueView.DecoratedQueueLine | rqinfo.py:70-71 | for every bar length, a decorated line starts with the queue name and its last column reads back as the count |
| QueueView.QueueSummary | rqinfo.py:80 | the summary's two numbers read back, in order, as the queue count and the job total, around the words ` queues, ` and ` jobs total` |
| QueueView.ShowQueues | rqinfo.py:48-80 | one line per resolved queue, plus one summary line `<queues> queues, <total> jobs total` outside raw mode |
| QueueView.ShowQueuesRaw | rqinfo.py:67-80 | raw mode prints exactly one line per queue, in order, each reading back as its queue, and no summary |
| QueueView.ShowQueuesDecorated | rqinfo.py:56-71 | every count is within the scale, so each decorated line has a bar no longer than the chart width and ends with its count |
| WorkerView.ListensOnAny | rqinfo.py:87-90 | a worker matches iff one of its queue names is in the filter |
| WorkerView.KeepListening | rqinfo.py:93 | keeps exactly the workers on a filtered queue, in order, each as often as it is listed |
| WorkerView.Prune | rqinfo.py:95-96 | the printed queue list is an order-preserving sublist holding every occurrence of each filtered name and nothing else |
| WorkerView.SelectWorkers | rqinfo.py:93-100 | without a filter every worker in order; with one, an order-preserving selection of exactly the workers that listen on a filtered queue |
| WorkerView.ListedQueues | rqinfo.py:95-101 | the printed names are the worker's names that are in the filter (all of them without one), and are never none for a worker the filter selected |
| WorkerView.RawWorkerLineQueues | rqinfo.py:103-109 | a raw worker line starts with `worker `; when no printed queue name holds a space or a comma, its last column splits on commas into the printed names, or is empty when none is printed |
| WorkerView.ByWorkerLines | rqinfo.py:103-109 | the per-worker listing has one line per selected worker, in order, each that worker's line |
| WorkerView.DecoratedWorkerLine | rqinfo.py:107 | outside raw mode a worker line reads `<name> <state>: <queues>` once colours are removed |
| WorkerView.RawWorkerLine | rqinfo.py:109 | a raw worker line starts with `worker ` followed by the worker's name |
| WorkerView.Distinct | rqinfo.py:112 | the reverse index has each resolved queue name exactly once |
| WorkerView.Listeners | rqinfo.py:113-117 | the index collects a worker under a queue iff the worker names that queue |
| WorkerView.ListenersMultiplicity | rqinfo.py:113-117 | a worker is collected under a queue once per time it names the queue, for each time it is listed |
| WorkerView.Entries | rqinfo.py:121-122 | a queue's entries are the `name (state)` texts of its collected workers, sorted, with multiplicity |
| WorkerView.Entry | rqinfo.py:122 | an entry starts with the worker's name and ` (`, ends with `)`, and reads `<name> (<state>)` once colours are removed |
| WorkerView.EntriesOrderFollowsEscape | rqinfo.py:122 | on busy `a` against `a (b`, the model orders the entries as `sorted` does on the real escape codes: `a` first (the general comparison is `Symbols.CodesSortLikeEscapes`) |
| WorkerView.MaxNameLength | rqinfo.py:119 | `max_qname` is the longest queue name's length, 0 with no queues |
| WorkerView.ByQueueLines | rqinfo.py:112-125 | the by-queue listing has one line per distinct resolved queue |
| WorkerView.ByQueueLine | rqinfo.py:125 | a by-queue line is the name and a colon padded with spaces to the width, a space, and the queue's worker list |
| WorkerView.ByQueueText | rqinfo.py:121-124 | the worker list of a queue is the placeholder exactly when no worker was collected under it |
| WorkerView.ByQueueLayout | rqinfo.py:119-125 | all by-queue lines pad the name column to the longest name plus one, so the worker lists line up |
| WorkerView.ListedUnderQueueIff | rqinfo.py:84-117 | a worker appears under a displayed queue iff it listens on that queue |
| WorkerView.ShowWorkers | rqinfo.py:83-128 | one line per selected worker or per distinct queue, plus `<workers> workers, <queues> queues` outside raw mode, where repeated filter names count |
| WorkerView.WorkerSummary | rqinfo.py:127-128 | the summary's two numbers read back, in order, as the worker count and the queue count, around the words ` workers, ` and ` queues` |
| WorkerView.ShowWorkersLines | rqinfo.py:103-125 | before the summary come the selected workers' lines in order, or the by-queue lines of the resolved queue names |
| Monitor.ShowBoth | rqinfo.py:131-139 | queue section first, then worker section; outside raw mode a blank line between them, then a blank line and `Updated: <time>` |
| Monitor.SelectView | rqinfo.py:168-173 | only-queues wins over only-workers; with neither, both sections are shown |
| Monitor.RenderPass | rqinfo.py:168-175 | only-queues prints the queue listing alone, only-workers (without only-queues) the worker listing alone, and neither flag both listings |
| Monitor.Refresh | rqinfo.py:142-150 | with a zero interval or no terminal, one render and stop; otherwise clear, render and sleep each pass, never stopping by itself; a negative interval fails at the first sleep |
| Monitor.Info | rqinfo.py:161-175 | the loop runs the chosen renderer once per pass on that pass's snapshot: one render when not polling, a clear/render/sleep cycle per pass with a positive interval, a failure after the first render with a negative one, and nothing for an empty run |

## Left out

- The rq/Redis backend (`Queue`, `Worker`, `Queue.all`, `Worker.all`, `count`, `get_state`, `queue_names`) is a foreign library. It becomes the `Snapshot` record. Every read in one pass sees that one snapshot, so a count cannot change between the two loops of `show_queues`.
- The colourisers' escape codes belong to that library. A control character stands for each one. The library's choice to leave text uncoloured when output is not a terminal is not modelled.
- WorkerView.RawWorkerLineQueues: the read-back is claimed only for queue names without spaces or commas. A queue name with a space, which rq allows, leaves only its last word in the line's last column.
- WorkerView.Entries: sorts as the program does on a terminal. Off a terminal the colour library leaves states uncoloured and `sorted` orders plain text, so busy `a` then comes after `a (b`; the model always colours. It also differs when a worker name or state itself holds a character from U+0018 to U+001B, where a one-character stand-in and the real multi-character escape code can compare differently.
- `gettermsize` is a terminal query. The width is a field of `Pass`.
- QueueView.BarLength: computes the exact floor of chart width × count / scale. The source's floating-point ratio can truncate one lower, so only the bounds and the ordering are claimed.
- `os.system('clear')`, `time.sleep` and `datetime.now()` are side effects. They become `ClearScreen` and `Sleep` events and the `now` text of a pass.
- Monitor.Refresh: the terminal test is taken once per run, while the source asks again at each check. The interval is a `real`, so a NaN or infinite interval is not modelled.
- Monitor.Refresh: a user interrupt is modelled only between passes, as the end of the supplied list of passes.
- The `sys.path` change, click option parsing, and the mapping of exceptions to exit codes are process glue.
- Text.LexLe: orders by Unicode scalar value. A Python 2 narrow build compares UTF-16 code units, which differs only for characters outside the Basic Multilingual Plane.
- The order of a Python 2 `dict` is unspecified. The by-queue index is kept in first-occurrence order, and no property depends on that order.
- setup.py is packaging metadata.

=== FILE: backend.dfy ===
/** The records the monitor reads from the queue backend, taken as plain
    values: one `Snapshot` is what the backend answers during one pass. */
module Backend {

  /** A queue and its number of pending jobs. */
  datatype Queue = Queue(name: string, count: nat)

  /** A worker, its reported state and the names of the queues it
      listens on, in the backend's order. */
  datatype Worker = Worker(name: string, state: string, queueNames: seq<string>)

  /** `Queue.all()` and `Worker.all()` at the time of one pass. */
  datatype Snapshot = Snapshot(queues: seq<Queue>, workers: seq<Worker>)

  function Names(qs: seq<Queue>): (r: seq<string>)
    ensures |r| == |qs|
    ensures forall i :: 0 <= i < |qs| ==> r[i] == qs[i].name
  {
    seq(|qs|, i requires 0 <= i < |qs| => qs[i].name)
  }

  /** `Queue(name).count`: the pending jobs of the first listed queue of
      that name; a queue the backend does not list holds no jobs. */
  function CountOf(queues: seq<Queue>, name: string): (n: nat)
    ensures name !in Names(queues) ==> n == 0
    ensures forall i :: (0 <= i < |queues| && queues[i].name == name
                         && forall j :: 0 <= j < i ==> queues[j].name != name) ==> n == queues[i].count
  {
    if |queues| == 0 then 0
    else if queues[0].name == name then queues[0].count
    else
      assert Names(queues[1..]) == Names(queues)[1..];
      CountOf(queues[1..], name)
  }

  /** The queue set of one pass: one queue per filter name, in filter
      order and with repeats kept, or every queue when there is no filter. */
  function ResolveQueues(filter: seq<string>, snap: Snapshot): (qs: seq<Queue>)
    ensures |filter| == 0 ==> qs == snap.queues
    ensures |filter| > 0 ==> Names(qs) == filter
    ensures |filter| > 0 ==> forall i :: 0 <= i < |qs| ==> qs[i].count == CountOf(snap.queues, filter[i])
  {
    if |filter| == 0 then snap.queues
    else seq(|filter|, i requires 0 <= i < |filter| => Queue(filter[i], CountOf(snap.queues, filter[i])))
  }
}

=== FILE: monitor.dfy ===
/** The `rqinfo` command: the combined view, the choice of renderer and
    the refresh loop that repeats it. */
module Monitor {
  import opened Backend
  import opened QueueView
  import opened WorkerView

  /** The options of the command that reach the renderers and the loop. */
  datatype Options = Options(
    interval: real,
    raw: bool,
    onlyQueues: bool,
    onlyWorkers: bool,
    byQueue: bool,
    queues: seq<string>)

  /** What the backend and the host report during one pass: the records,
      the terminal width and the formatted current time. */
  datatype Pass = Pass(snapshot: Snapshot, termWidth: int, now: string)

  /** `show_both`: the queue section, then the worker section, separated
      and followed by a timestamp outside raw mode. */
  function ShowBoth(filter: seq<string>, raw: bool, byQueue: bool, p: Pass): (lines: seq<string>)
    ensures var qs := ShowQueues(filter, raw, p.termWidth, p.snapshot);
      var ws := ShowWorkers(filter, raw, byQueue, p.snapshot);
      && |lines| == |qs| + |ws| + (if raw then 0 else 3)
      && lines[..|qs|] == qs
      && (raw ==> lines[|qs|..] == ws)
      && (!raw ==> && lines[|qs|] == ""
                   && lines[|qs| + 1..|qs| + 1 + |ws|] == ws
                   && lines[|qs| + 1 + |ws|] == ""
                   && lines[|lines| - 1] == "Updated: " + p.now)
  {
    Sections(ShowQueues(filter, raw, p.termWidth, p.snapshot), ShowWorkers(filter, raw, byQueue, p.snapshot), raw, p.now)
  }

  function Sections(qs: seq<string>, ws: seq<string>, raw: bool, now: string): (lines: seq<string>)
    ensures |lines| == |qs| + |ws| + (if raw then 0 else 3)
    ensures lines[..|qs|] == qs
    ensures raw ==> lines[|qs|..] == ws
    ensures !raw ==> && lines[|qs|] == ""
                     && lines[|qs| + 1..|qs| + 1 + |ws|] == ws
                     && lines[|qs| + 1 + |ws|] == ""
                     && lines[|lines| - 1] == "Updated: " + now
  {
    if raw then
      assert (qs + ws)[..|qs|] == qs && (qs + ws)[|qs|..] == ws;
      qs + ws
    else
      var out := qs + [""] + ws + ["", "Updated: " + now];
      assert out[..|qs|] == qs;
      assert out[|qs| + 1..|qs| + 1 + |ws|] == ws;
      out
  }

  datatype View = QueuesOnly | WorkersOnly | Combined

  /** The renderer `info` picks: only-queues wins over only-workers, and
      with neither both sections are shown. */
  function SelectView(onlyQueues: bool, onlyWorkers: bool): (v: View)
    ensures v == QueuesOnly <==> onlyQueues
    ensures v == WorkersOnly <==> !onlyQueues && onlyWorkers
    ensures v == Combined <==> !onlyQueues && !onlyWorkers
  {
    if onlyQueues then QueuesOnly
    else if onlyWorkers then WorkersOnly
    else Combined
  }

  /** One call of the chosen renderer: only-queues prints the queue
      listing alone, only-workers the worker listing alone, and with
      neither flag both listings follow each other. */
  function RenderPass(opts: Options, p: Pass): (lines: seq<string>)
    ensures opts.onlyQueues ==> lines == ShowQueues(opts.queues, opts.raw, p.termWidth, p.snapshot)
    ensures !opts.onlyQueues && opts.onlyWorkers ==>
      lines == ShowWorkers(opts.queues, opts.raw, opts.byQueue, p.snapshot)
    ensures !opts.onlyQueues && !opts.onlyWorkers ==> lines == ShowBoth(opts.queues, opts.raw, opts.byQueue, p)
  {
    match SelectView(opts.onlyQueues, opts.onlyWorkers)
    case QueuesOnly => ShowQueues(opts.queues, opts.raw, p.termWidth, p.snapshot)
    case WorkersOnly => ShowWorkers(opts.queues, opts.raw, opts.byQueue, p.snapshot)
    case Combined => ShowBoth(opts.queues, opts.raw, opts.byQueue, p)
  }

  /** What the loop does, in order. */
  datatype Event = ClearScreen | Render(lines: seq<string>) | Sleep(seconds: real)

  /** How a run ends: the loop broke after a single pass, the sleep call
      failed on a negative interval, or the user interrupted the loop
      after the passes shown. */
  datatype Status = Finished | Crashed | Interrupted

  datatype Trace = Trace(events: seq<Event>, status: Status)

  /** `val and sys.stdout.isatty()`: the loop keeps polling. */
  predicate Polls(interval: real, isatty: bool) {
    interval != 0.0 && isatty
  }

  /** One polling iteration. */
  function Cycle(frame: seq<string>, interval: real): seq<Event> {
    [ClearScreen, Render(frame), Sleep(interval)]
  }

  /** `refresh(val, func)`. The loop itself never ends while it polls, so
      `frames` holds the outputs of the calls of `func` that complete before
      the user interrupts; each iteration consumes the next one. */
  method Refresh(interval: real, isatty: bool, frames: seq<seq<string>>) returns (t: Trace)
    ensures !Polls(interval, isatty) ==>
      t == if |frames| == 0 then Trace([], Interrupted) else Trace([Render(frames[0])], Finished)
    ensures Polls(interval, isatty) && interval > 0.0 ==>
      && t.status == Interrupted
      && |t.events| == 3 * |frames|
      && forall k :: 0 <= k < |frames| ==> t.events[3 * k..3 * k + 3] == Cycle(frames[k], interval)
    ensures Polls(interval, isatty) && interval < 0.0 ==>
      t == if |frames| == 0 then Trace([], Interrupted) else Trace([ClearScreen, Render(frames[0])], Crashed)
  {
    var events: seq<Event> := [];
    var status := Interrupted;
    var i := 0;
    while i < |frames|
      invariant 0 <= i <= |frames|
      invariant status == Interrupted
      invariant Polls(interval, isatty) && interval > 0.0 ==>
        && |events| == 3 * i
        && forall k :: 0 <= k < i ==> events[3 * k..3 * k + 3] == Cycle(frames[k], interval)
      invariant !(Polls(interval, isatty) && interval > 0.0) ==> i == 0 && events == []
    {
      var pass: seq<Event> := [];
      if Polls(interval, isatty) {
        pass := pass + [ClearScreen];
      }
      pass := pass + [Render(frames[i])];
      if Polls(interval, isatty) {
        if interval < 0.0 {
          events := events + pass;
          status := Crashed;
          break;
        }
        pass := pass + [Sleep(interval)];
        assert pass == Cycle(frames[i], interval);
        assert forall k :: 0 <= k < i ==> (events + pass)[3 * k..3 * k + 3] == events[3 * k..3 * k + 3];
        assert (events + pass)[3 * i..3 * i + 3] == pass;
        events := events + pass;
      } else {
        events := events + pass;
        status := Finished;
        break;
      }
      i := i + 1;
    }
    t := Trace(events, status);
  }

  /** `info`: run the chosen renderer under the refresh loop, one pass of
      the backend per call. */
  method Info(opts: Options, isatty: bool, passes: seq<Pass>) returns (t: Trace)
    ensures !Polls(opts.interval, isatty) && |passes| > 0 ==>
      t == Trace([Render(RenderPass(opts, passes[0]))], Finished)
    ensures Polls(opts.interval, isatty) && opts.interval > 0.0 ==>
      && t.status == Interrupted
      && |t.events| == 3 * |passes|
      && forall k :: 0 <= k < |passes| ==>
           t.events[3 * k..3 * k + 3] == Cycle(RenderPass(opts, passes[k]), opts.interval)
    ensures Polls(opts.interval, isatty) && opts.interval < 0.0 && |passes| > 0 ==>
      t == Trace([ClearScreen, Render(RenderPass(opts, passes[0]))], Crashed)
    ensures |passes| == 0 ==> t == Trace([], Interrupted)
  {
    var frames := seq(|passes|, i requires 0 <= i < |passes| => RenderPass(opts, passes[i]));
    assert forall k :: 0 <= k < |passes| ==> frames[k] == RenderPass(opts, passes[k]);
    t := Refresh(opts.interval, isatty, frames);
    assert |passes| > 0 ==> frames[0] == RenderPass(opts, passes[0]);
  }
}

=== FILE: queue_view.dfy ===
/** `show_queues`: one line per queue, a bar chart scaled by `get_scale`,
    and a summary line. */
module QueueView {
  import opened Text
  import opened Symbols
  import opened Scale
  import opened Backend

  /** `min(20, termwidth - 20)`; negative on a terminal narrower than 20. */
  function ChartWidth(termWidth: int): (w: int)
    ensures w <= 20 && w <= termWidth - 20
    ensures w == 20 || w == termWidth - 20
  {
    if termWidth - 20 < 20 then termWidth - 20 else 20
  }

  /** `max_count`: the largest count, 0 when there are no queues. */
  function MaxCount(qs: seq<Queue>): (m: nat)
    ensures forall i :: 0 <= i < |qs| ==> qs[i].count <= m
    ensures |qs| == 0 ==> m == 0
    ensures |qs| > 0 ==> exists i :: 0 <= i < |qs| && qs[i].count == m
  {
    if |qs| == 0 then 0
    else
      var rest := MaxCount(qs[1..]);
      assert forall i :: 1 <= i < |qs| ==> qs[i] == qs[1..][i - 1];
      if rest < qs[0].count then qs[0].count else rest
  }

  /** `num_jobs`: the sum of the counts. */
  function TotalJobs(qs: seq<Queue>): (n: nat)
    ensures forall i :: 0 <= i < |qs| ==> qs[i].count <= n
    ensures n == 0 <==> forall i :: 0 <= i < |qs| ==> qs[i].count == 0
  {
    if |qs| == 0 then 0
    else
      assert forall i :: 1 <= i < |qs| ==> qs[i] == qs[1..][i - 1];
      qs[0].count + TotalJobs(qs[1..])
  }

  /* Integer facts behind the bar bounds. */

  lemma MulLeft(a: nat, c: nat, d: nat)
    requires c <= d
    ensures a * c <= a * d
  {
    assert a * d == a * c + a * (d - c);
  }

  lemma MulSignBound(k: int, s: int)
    requires s > 0
    ensures k >= 1 ==> k * s >= s
    ensures k <= -1 ==> k * s <= -s
  {
    if k >= 1 {
      MulLeft(s, 1, k);
    } else if k <= -1 {
      MulLeft(s, 1, -k);
    }
  }

  lemma DivMonotone(x: int, y: int, s: int)
    requires 0 <= x <= y && s > 0
    ensures x / s <= y / s
  {
    var qx, qy := x / s, y / s;
    assert x == qx * s + x % s;
    assert y == qy * s + y % s;
    assert (qx - qy) * s == (x - y) + (y % s - x % s);
    MulSignBound(qx - qy, s);
  }

  lemma DivOfMultiple(a: nat, s: int)
    requires s > 0
    ensures a * s / s == a
  {
    var q := a * s / s;
    assert a * s == q * s + a * s % s;
    assert (a - q) * s == a * s % s;
    MulSignBound(a - q, s);
  }

  lemma ScaledBelow(a: nat, c: nat, s: int)
    requires s > 0
    ensures c <= s ==> a * c / s <= a
  {
    if c <= s {
      MulLeft(a, c, s);
      DivMonotone(a * c, a * s, s);
      DivOfMultiple(a, s);
    }
  }

  lemma ScaledMonotone(a: nat, c: nat, d: nat, s: int)
    requires s > 0 && c <= d
    ensures a * c / s <= a * d / s
  {
    MulLeft(a, c, d);
    DivMonotone(a * c, a * d, s);
  }

  /** The number of block characters of a bar, `int(ratio * count)` with
      `ratio = chartwidth * 1.0 / scale`, in exact arithmetic. With a
      negative chart width the product is at most 0 and repeating a
      string a non-positive number of times gives the empty string. */
  function BarLength(chartWidth: int, count: nat, scale: int): (k: nat)
    requires scale > 0
    ensures count <= scale ==> k <= Max(0, chartWidth)
    ensures chartWidth <= 0 || count == 0 ==> k == 0
  {
    if chartWidth <= 0 then 0
    else
      ScaledBelow(chartWidth, count, scale);
      chartWidth * count / scale
  }

  /** Longer queues never get shorter bars. */
  lemma BarLengthMonotone(chartWidth: int, c: nat, d: nat, scale: int)
    requires scale > 0 && c <= d
    ensures BarLength(chartWidth, c, scale) <= BarLength(chartWidth, d, scale)
  {
    if chartWidth > 0 {
      ScaledMonotone(chartWidth, c, d, scale);
    }
  }

  const Block: char := '\U{2588}'

  /** `'%-12s %s %d' % (name, green('|' + '█' * bar), count)`: the line
      starts with the name, and its last column reads back as the count. */
  function DecoratedQueueLine(name: string, bar: nat, count: nat): (r: string)
    ensures |r| > |name| && r[..|name|] == name
    ensures ParseNat(LastField(r)) == Some(count)
  {
    var digits := NatToString(count);
    var head := Pad(name, 12) + " " + Paint(DarkGreen, "|" + Repeat(Block, bar));
    DigitsHaveNoSpace(digits);
    LastFieldOfSuffix(head, digits);
    NatToStringRoundTrip(count);
    head + " " + digits
  }

  /** `'queue %s %d' % (name, count)`. Raw mode is machine-readable: every
      raw line, whatever the queue's name, reads back as its queue. */
  function RawQueueLine(q: Queue): (r: string)
    ensures ParseRawQueueLine(r) == Some(q)
  {
    var digits := NatToString(q.count);
    var line := "queue " + q.name + " " + digits;
    assert line[..6] == "queue ";
    var rest := line[6..];
    assert rest == q.name + [' '] + digits;
    DigitsHaveNoSpace(digits);
    LastIndexOfBeforeSuffix(q.name, ' ', digits);
    assert rest[|q.name| + 1..] == digits;
    assert rest[..|q.name|] == q.name;
    NatToStringRoundTrip(q.count);
    line
  }

  /** `'%d queues, %d jobs total'`: the two numbers read back from their
      places around the fixed words. */
  function QueueSummary(queues: nat, jobs: nat): (r: string)
    ensures var n := |NatToString(queues)|;
      var m := |NatToString(jobs)|;
      && |r| == n + 9 + m + 11
      && ParseNat(r[..n]) == Some(queues)
      && r[n..n + 9] == " queues, "
      && ParseNat(r[n + 9..n + 9 + m]) == Some(jobs)
      && r[n + 9 + m..] == " jobs total"
  {
    var a := NatToString(queues);
    var b := NatToString(jobs);
    NatToStringRoundTrip(queues);
    NatToStringRoundTrip(jobs);
    var r := a + " queues, " + b + " jobs total";
    assert r[..|a|] == a;
    assert r[|a| + 9..|a| + 9 + |b|] == b;
    r
  }

  /** Reads a raw queue line back: the name is everything between the
      `queue ` prefix and the last space, the count everything after. */
  function ParseRawQueueLine(line: string): Option<Queue> {
    if |line| < 6 || line[..6] != "queue " then None
    else
      var rest := line[6..];
      match LastIndexOf(rest, ' ')
      case None => None
      case Some(k) =>
        match ParseNat(rest[k + 1..])
        case None => None
        case Some(n) => Some(Queue(rest[..k], n))
  }

  function QueueLine(q: Queue, raw: bool, chartWidth: int, scale: int): string
    requires scale > 0
  {
    if raw then RawQueueLine(q)
    else DecoratedQueueLine(q.name, BarLength(chartWidth, q.count, scale), q.count)
  }

  /** `show_queues`: the counts are read once, the scale comes from the
      largest of them, every queue gets one line in order, and outside raw
      mode a summary line follows. */
  function ShowQueues(filter: seq<string>, raw: bool, termWidth: int, snap: Snapshot): (lines: seq<string>)
    ensures var qs := ResolveQueues(filter, snap);
      && |lines| == |qs| + (if raw then 0 else 1)
      && (!raw ==> lines[|qs|] == QueueSummary(|qs|, TotalJobs(qs)))
  {
    var qs := ResolveQueues(filter, snap);
    var scale := GetScale(MaxCount(qs));
    var body := seq(|qs|, i requires 0 <= i < |qs| => QueueLine(qs[i], raw, ChartWidth(termWidth), scale));
    body + (if raw then [] else [QueueSummary(|qs|, TotalJobs(qs))])
  }

  /** Raw mode: exactly one line per resolved queue, in order, each
      reading back as that queue, and no summary. */
  lemma ShowQueuesRaw(filter: seq<string>, termWidth: int, snap: Snapshot)
    ensures var qs := ResolveQueues(filter, snap);
      var lines := ShowQueues(filter, true, termWidth, snap);
      |lines| == |qs| && forall i :: 0 <= i < |qs| ==> ParseRawQueueLine(lines[i]) == Some(qs[i])
  {
    var qs := ResolveQueues(filter, snap);
    var lines := ShowQueues(filter, true, termWidth, snap);
    forall i | 0 <= i < |qs|
      ensures ParseRawQueueLine(lines[i]) == Some(qs[i])
    {
      assert lines[i] == RawQueueLine(qs[i]);
    }
  }

  /** Decorated mode: every count is at most `max_count`, which is at most
      the scale, so each queue's line carries a bar no longer than the
      chart width (none on a narrow terminal) and ends with its count. */
  lemma ShowQueuesDecorated(filter: seq<string>, termWidth: int, snap: Snapshot)
    ensures var qs := ResolveQueues(filter, snap);
      var lines := ShowQueues(filter, false, termWidth, snap);
      forall i :: 0 <= i < |qs| ==>
        && ParseNat(LastField(lines[i])) == Some(qs[i].count)
        && exists bar: nat :: bar <= Max(0, ChartWidth(termWidth))
             && lines[i] == DecoratedQueueLine(qs[i].name, bar, qs[i].count)
  {
    var qs := ResolveQueues(filter, snap);
    var lines := ShowQueues(filter, false, termWidth, snap);
    var scale := GetScale(MaxCount(qs));
    forall i | 0 <= i < |qs|
      ensures ParseNat(LastField(lines[i])) == Some(qs[i].count)
      ensures exists bar: nat :: bar <= Max(0, ChartWidth(termWidth))
                && lines[i] == DecoratedQueueLine(qs[i].name, bar, qs[i].count)
    {
      var bar := BarLength(ChartWidth(termWidth), qs[i].count, scale);
      assert lines[i] == DecoratedQueueLine(qs[i].name, bar, qs[i].count);
    }
  }
}

=== FILE: scale.dfy ===
/** `get_scale`: the denominator of the queue bar chart, snapped to a
    round bucket so that bars stay readable as queues grow. */
module Scale {

  /** The buckets of `get_scale`, in the order the loop tries them. */
  const Buckets: seq<int> := [20, 50, 100, 200, 400, 600, 800, 1000]

  predicate Ascending(bs: seq<int>) {
    forall i, j :: 0 <= i < j < |bs| ==> bs[i] < bs[j]
  }

  /** The loop of `get_scale` over `bs`: the first bucket that is at least
      `x`, or `x` itself when every bucket is smaller. */
  function FirstAtLeast(x: int, bs: seq<int>): (r: int)
    ensures r >= x
    ensures (forall b :: b in bs ==> b < x) ==> r == x
    ensures (exists b :: b in bs && x <= b) ==> r in bs
    ensures Ascending(bs) ==> forall b :: b in bs && x <= b ==> r <= b
  {
    if |bs| == 0 then x
    else if x <= bs[0] then
      assert bs[0] in bs;
      bs[0]
    else
      assert forall b :: b in bs ==> b == bs[0] || b in bs[1..];
      assert forall b :: b in bs[1..] ==> b in bs;
      assert Ascending(bs) ==> Ascending(bs[1..]);
      FirstAtLeast(x, bs[1..])
  }

  /** The lowest bucket that is at least `x`; `x` itself above 1000. */
  function GetScale(x: int): (r: int)
    ensures r >= x && r >= 20
    ensures x <= 1000 ==> r in Buckets && forall b :: b in Buckets && x <= b ==> r <= b
    ensures x > 1000 ==> r == x
  {
    assert Ascending(Buckets);
    assert 1000 in Buckets;
    FirstAtLeast(x, Buckets)
  }

  lemma GetScaleMonotone(x: int, y: int)
    requires x <= y
    ensures GetScale(x) <= GetScale(y)
  {
    if y <= 1000 {
      assert GetScale(y) in Buckets;
    }
  }

  /** Fixed points of `get_scale`: 20 up to 20, 1000 on (800, 1000], and
      the count itself above 1000. */
  lemma GetScaleSamples(x: int)
    ensures x <= 20 ==> GetScale(x) == 20
    ensures 800 < x <= 1000 ==> GetScale(x) == 1000
    ensures x > 1000 ==> GetScale(x) == x
  {
    assert 20 in Buckets && 1000 in Buckets;
  }
}

=== FILE: symbols.dfy ===
/** Terminal decoration: the colourisers and `state_symbol`.

    The colourisers wrap text in escape codes chosen by a library this
    model does not contain: `ESC [31m`, `ESC [32m` and `ESC [33m` open dark
    red, green and yellow, and `ESC [39;49;00m` resets. Here each code is one
    control character, so a painted string is `[Marker(c)] + text + [Reset]`.
    The characters are U+0018 to U+001B (ESC), in the order of the codes
    they stand for, so that `sorted` orders painted text as it orders the
    real codes. */
module Symbols {

  datatype Colour = DarkRed | DarkGreen | DarkYellow

  const Escape: char := '\U{001B}'

  const Reset: char := Escape

  function Marker(c: Colour): char {
    match c
    case DarkRed => '\U{0018}'
    case DarkGreen => '\U{0019}'
    case DarkYellow => '\U{001A}'
  }

  /** The stand-ins compare as the escape codes do: among themselves in
      the order 31, 32, 33, 39, and against any other character as ESC
      does, except the three control characters just below ESC. */
  lemma CodesSortLikeEscapes(c: Colour, x: char)
    requires x < '\U{0018}' || Escape < x
    ensures Marker(DarkRed) < Marker(DarkGreen) < Marker(DarkYellow) < Reset
    ensures (Marker(c) < x) == (Escape < x) && (x < Marker(c)) == (x < Escape)
    ensures (Reset < x) == (Escape < x)
  {
  }

  predicate IsMarker(ch: char) {
    ch == Reset || ch == Marker(DarkRed) || ch == Marker(DarkGreen) || ch == Marker(DarkYellow)
  }

  /** What a reader of the terminal sees: the text without colour codes. */
  function Plain(s: string): (r: string)
    ensures |r| <= |s|
    ensures forall i :: 0 <= i < |r| ==> !IsMarker(r[i])
  {
    if |s| == 0 then []
    else (if IsMarker(s[0]) then [] else [s[0]]) + Plain(s[1..])
  }

  lemma {:induction false} PlainAppend(a: string, b: string)
    ensures Plain(a + b) == Plain(a) + Plain(b)
    decreases |a|
  {
    if |a| > 0 {
      assert (a + b)[1..] == a[1..] + b;
      PlainAppend(a[1..], b);
    } else {
      assert a + b == b;
    }
  }

  /** `red(text)`, `green(text)`, `yellow(text)`. */
  function Paint(c: Colour, text: string): (r: string)
    ensures |r| == |text| + 2 && r[0] == Marker(c) && r[|r| - 1] == Reset
    ensures Plain(r) == Plain(text)
  {
    PlainAppend([Marker(c)] + text, [Reset]);
    PlainAppend([Marker(c)], text);
    [Marker(c)] + text + [Reset]
  }

  /** `state_symbol`: busy in red, idle in green, any other state verbatim.
      The decoration never changes the visible text. */
  function StateSymbol(state: string): (r: string)
    ensures Plain(r) == Plain(state)
    ensures state == "busy" ==> r == Paint(DarkRed, "busy")
    ensures state == "idle" ==> r == Paint(DarkGreen, "idle")
    ensures state != "busy" && state != "idle" ==> r == state
  {
    if state == "busy" then Paint(DarkRed, state)
    else if state == "idle" then Paint(DarkGreen, state)
    else state
  }
}

=== FILE: text.dfy ===
/** String helpers behind the monitor's line formatting: `%-Ns` padding,
    `%d` decimal numbers, `str.join`, and the ordering Python's `sorted`
    uses for strings. */
module Text {

  /** The optional value the parsers of the model return. */
  datatype Option<+T> = None | Some(value: T)

  function Max(a: int, b: int): int {
    if a < b then b else a
  }

  /** `n` copies of `x` (Python's `x * n` for n >= 0). */
  function Repeat<T>(x: T, n: nat): (r: seq<T>)
    ensures |r| == n
    ensures forall i :: 0 <= i < n ==> r[i] == x
  {
    seq(n, _ => x)
  }

  /* ---------------------------------------------------------------------- */
  /* Padding                                                                */
  /* ---------------------------------------------------------------------- */

  /** The field width of the format `'%-' + '%d' % n + 's'`: for a negative
      `n` the minus sign becomes a second `-` flag, so only the magnitude
      is a width. */
  function FieldWidth(n: int): nat {
    if n < 0 then -n else n
  }

  /** `pad(s, n)`: left-justify `s` in a field of the given width. */
  function Pad(s: string, padToLength: int): (r: string)
    ensures |r| == Max(|s|, FieldWidth(padToLength))
    ensures r[..|s|] == s
    ensures forall i :: |s| <= i < |r| ==> r[i] == ' '
  {
    if |s| >= FieldWidth(padToLength) then s
    else s + Repeat(' ', FieldWidth(padToLength) - |s|)
  }

  /** A padded column followed by a space and more text: the column's
      text, then spaces up to and including the separator, then the rest. */
  lemma PaddedColumn(s: string, width: nat, rest: string)
    requires |s| <= width
    ensures var line := Pad(s, width) + " " + rest;
      && |line| == width + 1 + |rest|
      && line[..|s|] == s
      && (forall j :: |s| <= j <= width ==> line[j] == ' ')
      && line[width + 1..] == rest
  {
    var column := Pad(s, width);
    var line := column + " " + rest;
    assert |column| == width;
    assert line[..|s|] == column[..|s|];
    assert forall j :: |s| <= j < width ==> line[j] == column[j];
    assert line[width + 1..] == rest;
  }

  /** Drops trailing spaces: the inverse of padding. */
  function TrimRight(s: string): (r: string)
    ensures |r| <= |s| && r == s[..|r|]
    ensures |r| == 0 || r[|r| - 1] != ' '
  {
    if |s| > 0 && s[|s| - 1] == ' ' then TrimRight(s[..|s| - 1]) else s
  }

  lemma {:induction false} TrimRightSpaces(s: string, k: nat)
    requires |s| == 0 || s[|s| - 1] != ' '
    ensures TrimRight(s + Repeat(' ', k)) == s
    decreases k
  {
    if k == 0 {
      assert s + Repeat(' ', 0) == s;
    } else {
      var t := s + Repeat(' ', k);
      assert t[..|t| - 1] == s + Repeat(' ', k - 1);
      TrimRightSpaces(s, k - 1);
    }
  }

  /** Padding never loses information: a string that does not end in a
      space comes back from its padded form by trimming. */
  lemma PadTrimRoundTrip(s: string, padToLength: int)
    requires |s| == 0 || s[|s| - 1] != ' '
    ensures TrimRight(Pad(s, padToLength)) == s
  {
    if |s| >= FieldWidth(padToLength) {
      TrimRightSpaces(s, 0);
      assert s + Repeat(' ', 0) == s;
    } else {
      TrimRightSpaces(s, FieldWidth(padToLength) - |s|);
    }
  }

  /* ---------------------------------------------------------------------- */
  /* Decimal numbers                                                        */
  /* ---------------------------------------------------------------------- */

  predicate IsDigit(c: char) {
    '0' <= c <= '9'
  }

  predicate AllDigits(s: string) {
    forall i :: 0 <= i < |s| ==> IsDigit(s[i])
  }

  function DigitChar(d: nat): (c: char)
    requires d < 10
    ensures IsDigit(c)
    ensures c as int - '0' as int == d
  {
    ('0' as int + d) as char
  }

  /** `'%d' % n` for a non-negative `n`: no sign, no leading zeros. */
  function NatToString(n: nat): (r: string)
    ensures |r| > 0 && AllDigits(r)
    ensures |r| > 1 ==> r[0] != '0'
    decreases n
  {
    if n < 10 then [DigitChar(n)] else NatToString(n / 10) + [DigitChar(n % 10)]
  }

  lemma DigitsHaveNoSpace(s: string)
    requires AllDigits(s)
    ensures ' ' !in s
  {
    assert forall i :: 0 <= i < |s| ==> s[i] != ' ';
  }

  function DigitsValue(s: string): nat
    requires AllDigits(s)
  {
    if |s| == 0 then 0
    else DigitsValue(s[..|s| - 1]) * 10 + (s[|s| - 1] as int - '0' as int)
  }

  /** Reads a decimal number back; `None` for anything that is not a
      non-empty run of digits. */
  function ParseNat(s: string): (r: Option<nat>)
    ensures r.Some? <==> |s| > 0 && AllDigits(s)
  {
    if |s| > 0 && AllDigits(s) then Some(DigitsValue(s)) else None
  }

  lemma {:induction false} DigitsValueOfNatToString(n: nat)
    ensures DigitsValue(NatToString(n)) == n
    decreases n
  {
    if n >= 10 {
      var s := NatToString(n);
      assert s[..|s| - 1] == NatToString(n / 10);
      DigitsValueOfNatToString(n / 10);
    }
  }

  lemma NatToStringRoundTrip(n: nat)
    ensures ParseNat(NatToString(n)) == Some(n)
  {
    DigitsValueOfNatToString(n);
  }

  /* ---------------------------------------------------------------------- */
  /* Searching and joining                                                  */
  /* ---------------------------------------------------------------------- */

  /** The position of the last `c` in `s` (Python's `str.rfind`). */
  function LastIndexOf(s: string, c: char): (r: Option<nat>)
    ensures r.Some? ==> r.value < |s| && s[r.value] == c
    ensures r.Some? ==> forall j :: r.value < j < |s| ==> s[j] != c
    ensures r.None? <==> c !in s
  {
    if |s| == 0 then None
    else if s[|s| - 1] == c then Some(|s| - 1)
    else LastIndexOf(s[..|s| - 1], c)
  }

  /** A `c` followed only by text without `c` is the last `c`. */
  lemma {:induction false} LastIndexOfBeforeSuffix(a: string, c: char, t: string)
    requires c !in t
    ensures LastIndexOf(a + [c] + t, c) == Some(|a|)
    decreases |t|
  {
    var s := a + [c] + t;
    if |t| > 0 {
      assert s[|s| - 1] == t[|t| - 1];
      assert s[..|s| - 1] == a + [c] + t[..|t| - 1];
      LastIndexOfBeforeSuffix(a, c, t[..|t| - 1]);
    }
  }

  /** The text after the last space: the last column of a line. */
  function LastField(line: string): (r: string)
    ensures ' ' !in r
  {
    match LastIndexOf(line, ' ')
    case None => line
    case Some(k) => line[k + 1..]
  }

  lemma LastFieldOfSuffix(a: string, t: string)
    requires ' ' !in t
    ensures LastField(a + " " + t) == t
  {
    LastIndexOfBeforeSuffix(a, ' ', t);
    assert (a + " " + t)[|a| + 1..] == t;
  }

  /** `sep.join(parts)`. */
  function Join(sep: string, parts: seq<string>): (r: string)
    ensures |parts| == 0 ==> r == ""
    ensures |parts| > 0 ==> |r| >= |parts[0]| && r[..|parts[0]|] == parts[0]
  {
    if |parts| == 0 then ""
    else if |parts| == 1 then parts[0]
    else parts[0] + sep + Join(sep, parts[1..])
  }

  /** A character in neither the separator nor any part is not in the
      joined text. */
  lemma {:induction false} JoinExcludes(sep: string, parts: seq<string>, c: char)
    requires c !in sep
    requires forall i :: 0 <= i < |parts| ==> c !in parts[i]
    ensures c !in Join(sep, parts)
    decreases |parts|
  {
    if |parts| > 1 {
      JoinExcludes(sep, parts[1..], c);
    }
  }

  /** `s.split(c)`: the pieces between the occurrences of `c`, one more
      piece than there are occurrences. */
  function SplitOn(c: char, s: string): (r: seq<string>)
    ensures |r| > 0
    ensures forall i :: 0 <= i < |r| ==> c !in r[i]
    decreases |s|
  {
    if |s| == 0 then [""]
    else
      var rest := SplitOn(c, s[1..]);
      if s[0] == c then [""] + rest
      else [[s[0]] + rest[0]] + rest[1..]
  }

  lemma {:induction false} SplitOnPrefix(c: char, p: string, t: string)
    requires c !in p
    ensures SplitOn(c, p + t) == [p + SplitOn(c, t)[0]] + SplitOn(c, t)[1..]
    decreases |p|
  {
    if |p| > 0 {
      assert (p + t)[0] == p[0];
      assert (p + t)[1..] == p[1..] + t;
      SplitOnPrefix(c, p[1..], t);
      assert [p[0]] + (p[1..] + SplitOn(c, t)[0]) == p + SplitOn(c, t)[0];
    } else {
      var r := SplitOn(c, t);
      assert p + t == t;
      assert p + r[0] == r[0];
      assert r == [r[0]] + r[1..];
    }
  }

  /** Joining pieces free of `c` with `c` and splitting on `c` gives the
      pieces back. */
  lemma {:induction false} SplitJoinRoundTrip(c: char, parts: seq<string>)
    requires |parts| > 0
    requires forall i :: 0 <= i < |parts| ==> c !in parts[i]
    ensures SplitOn(c, Join([c], parts)) == parts
    decreases |parts|
  {
    if |parts| == 1 {
      SplitOnPrefix(c, parts[0], "");
      assert parts[0] + "" == parts[0];
    } else {
      var tail := Join([c], parts[1..]);
      SplitJoinRoundTrip(c, parts[1..]);
      assert Join([c], parts) == parts[0] + [c] + tail;
      assert parts[0] + [c] + tail == parts[0] + ([c] + tail);
      SplitOnPrefix(c, parts[0], [c] + tail);
      assert ([c] + tail)[0] == c && ([c] + tail)[1..] == tail;
      assert SplitOn(c, [c] + tail) == [""] + parts[1..];
      assert parts[0] + "" == parts[0];
      assert parts == [parts[0]] + parts[1..];
    }
  }

  /* ---------------------------------------------------------------------- */
  /* Ordering and sorting                                                   */
  /* ---------------------------------------------------------------------- */

  /** Python's `a <= b` on strings: lexicographic by code point, with a
      proper prefix ordered first. */
  predicate LexLe(a: string, b: string)
    decreases |a|
  {
    |a| == 0 || (|b| > 0 && (a[0] < b[0] || (a[0] == b[0] && LexLe(a[1..], b[1..]))))
  }

  lemma {:induction false} LexLeTotal(a: string, b: string)
    ensures LexLe(a, b) || LexLe(b, a)
    decreases |a|
  {
    if |a| > 0 && |b| > 0 && a[0] == b[0] {
      LexLeTotal(a[1..], b[1..]);
    }
  }

  lemma {:induction false} LexLeTransitive(a: string, b: string, c: string)
    requires LexLe(a, b) && LexLe(b, c)
    ensures LexLe(a, c)
    decreases |a|
  {
    if |a| > 0 && a[0] == b[0] && b[0] == c[0] {
      LexLeTransitive(a[1..], b[1..], c[1..]);
    }
  }

  lemma {:induction false} LexLeAntisymmetric(a: string, b: string)
    requires LexLe(a, b) && LexLe(b, a)
    ensures a == b
    decreases |a|
  {
    if |a| > 0 {
      LexLeAntisymmetric(a[1..], b[1..]);
      assert a == [a[0]] + a[1..];
      assert b == [b[0]] + b[1..];
    }
  }

  predicate Sorted(s: seq<string>) {
    forall i, j {:trigger LexLe(s[i], s[j])} :: 0 <= i < j < |s| ==> LexLe(s[i], s[j])
  }

  /** Inserts `x` into a sorted sequence. */
  function Insert(x: string, s: seq<string>): (r: seq<string>)
    requires Sorted(s)
    ensures Sorted(r)
    ensures multiset(r) == multiset(s) + multiset{x}
  {
    if |s| == 0 then [x]
    else if LexLe(x, s[0]) then
      assert forall j :: 0 <= j < |s| ==> LexLe(x, s[j]) by {
        forall j | 0 <= j < |s| ensures LexLe(x, s[j]) {
          if j > 0 { LexLeTransitive(x, s[0], s[j]); }
        }
      }
      [x] + s
    else
      LexLeTotal(x, s[0]);
      var rest := Insert(x, s[1..]);
      assert s == [s[0]] + s[1..];
      assert forall y :: y in rest ==> LexLe(s[0], y) by {
        forall y | y in rest ensures LexLe(s[0], y) {
          assert y in multiset(rest);
          if y != x {
            assert y in multiset(s[1..]);
            var k :| 0 <= k < |s[1..]| && s[1..][k] == y;
            assert s[k + 1] == y;
          }
        }
      }
      [s[0]] + rest
  }

  /** Python's `sorted` on a list of strings. */
  function Sort(s: seq<string>): (r: seq<string>)
    ensures Sorted(r)
    ensures multiset(r) == multiset(s)
  {
    if |s| == 0 then []
    else
      assert s == [s[0]] + s[1..];
      Insert(s[0], Sort(s[1..]))
  }

  /** The head of a sorted sequence is below every element. */
  lemma SortedHeadIsLeast(a: seq<string>, x: string)
    requires Sorted(a) && x in a
    ensures LexLe(a[0], x)
  {
    var i :| 0 <= i < |a| && a[i] == x;
    if i == 0 { LexLeTotal(x, x); }
  }

  lemma SortedTail(a: seq<string>)
    requires Sorted(a) && |a| > 0
    ensures Sorted(a[1..])
  {
    assert forall i :: 0 <= i < |a[1..]| ==> a[1..][i] == a[i + 1];
  }

  lemma MultisetTail<T>(a: seq<T>)
    requires |a| > 0
    ensures multiset(a[1..]) == multiset(a) - multiset{a[0]}
  {
    assert a == [a[0]] + a[1..];
  }

  /** A sorted arrangement of a multiset of strings is unique, so `Sort`
      yields exactly what any correct sorting algorithm yields. */
  lemma {:induction false} SortedUnique(a: seq<string>, b: seq<string>)
    requires Sorted(a) && Sorted(b)
    requires multiset(a) == multiset(b)
    ensures a == b
    decreases |a|
  {
    assert |a| == |multiset(a)| == |multiset(b)| == |b|;
    if |a| > 0 {
      assert a[0] in multiset(b) && b[0] in multiset(a);
      SortedHeadIsLeast(b, a[0]);
      SortedHeadIsLeast(a, b[0]);
      LexLeAntisymmetric(a[0], b[0]);
      MultisetTail(a);
      MultisetTail(b);
      SortedTail(a);
      SortedTail(b);
      SortedUnique(a[1..], b[1..]);
      assert a == [a[0]] + a[1..] && b == [b[0]] + b[1..];
    }
  }
}

=== FILE: worker_view.dfy ===
/** `show_workers`: the worker listing, per worker or grouped by queue,
    restricted to the queues of a filter when one is given. */
module WorkerView {
  import opened Text
  import opened Symbols
  import opened Backend

  /** `a` is `b` with some elements left out, the rest in order. */
  predicate IsSubsequence<T(==)>(a: seq<T>, b: seq<T>)
    decreases |b|
  {
    |a| == 0 || (|b| > 0 && ((a[0] == b[0] && IsSubsequence(a[1..], b[1..])) || IsSubsequence(a, b[1..])))
  }

  /* ---------------------------------------------------------------------- */
  /* Filtering                                                              */
  /* ---------------------------------------------------------------------- */

  /** `any_matching_queue`: some queue of the worker is in the filter. */
  function ListensOnAny(filter: seq<string>, names: seq<string>): (b: bool)
    ensures b <==> exists n :: n in names && n in filter
  {
    if |names| == 0 then false
    else
      assert forall n :: n in names ==> n == names[0] || n in names[1..];
      names[0] in filter || ListensOnAny(filter, names[1..])
  }

  /** The list comprehension that keeps the workers on a filtered queue. */
  function KeepListening(filter: seq<string>, ws: seq<Worker>): (r: seq<Worker>)
    ensures forall w :: w in r <==> w in ws && ListensOnAny(filter, w.queueNames)
    ensures IsSubsequence(r, ws)
    ensures forall w :: multiset(r)[w] == if ListensOnAny(filter, w.queueNames) then multiset(ws)[w] else 0
  {
    if |ws| == 0 then []
    else
      var rest := KeepListening(filter, ws[1..]);
      assert forall w :: w in ws <==> w == ws[0] || w in ws[1..];
      assert ws == [ws[0]] + ws[1..];
      assert multiset(ws) == multiset{ws[0]} + multiset(ws[1..]);
      if ListensOnAny(filter, ws[0].queueNames) then
        assert ([ws[0]] + rest)[1..] == rest;
        assert multiset([ws[0]] + rest) == multiset{ws[0]} + multiset(rest);
        [ws[0]] + rest
      else rest
  }

  /** `filter_queues`: the worker's queue names that are in the filter,
      every occurrence kept, in order. */
  function Prune(filter: seq<string>, names: seq<string>): (r: seq<string>)
    ensures IsSubsequence(r, names)
    ensures forall n :: multiset(r)[n] == if n in filter then multiset(names)[n] else 0
  {
    if |names| == 0 then []
    else
      var rest := Prune(filter, names[1..]);
      assert names == [names[0]] + names[1..];
      assert multiset(names) == multiset{names[0]} + multiset(names[1..]);
      if names[0] in filter then
        assert ([names[0]] + rest)[1..] == rest;
        assert multiset([names[0]] + rest) == multiset{names[0]} + multiset(rest);
        [names[0]] + rest
      else rest
  }

  /** `ws`: all workers without a filter; with one, exactly the workers
      on a filtered queue, in order. */
  function SelectWorkers(filter: seq<string>, all: seq<Worker>): (ws: seq<Worker>)
    ensures |filter| == 0 ==> ws == all
    ensures |filter| > 0 ==> forall w :: w in ws <==>
              w in all && exists n :: n in w.queueNames && n in filter
    ensures IsSubsequence(ws, all)
  {
    if |filter| == 0 then
      SubsequenceRefl(all);
      all
    else KeepListening(filter, all)
  }

  lemma {:induction false} SubsequenceRefl<T>(a: seq<T>)
    ensures IsSubsequence(a, a)
    decreases |a|
  {
    if |a| > 0 {
      SubsequenceRefl(a[1..]);
    }
  }

  /** The queue names printed for a worker: all of them without a filter,
      the filtered ones with one, which are never none for a worker the
      filter selected. */
  function ListedQueues(filter: seq<string>, names: seq<string>): (r: seq<string>)
    ensures |filter| == 0 ==> r == names
    ensures forall n :: n in r <==> n in names && (|filter| == 0 || n in filter)
    ensures (exists n :: n in names && n in filter) ==> |r| > 0
  {
    if |filter| == 0 then names
    else
      var r := Prune(filter, names);
      assert forall n :: n in r <==> multiset(r)[n] > 0;
      assert forall n :: n in names <==> multiset(names)[n] > 0;
      r
  }

  /* ---------------------------------------------------------------------- */
  /* Grouping by worker                                                     */
  /* ---------------------------------------------------------------------- */

  /** One line of the per-worker listing. */
  function WorkerLine(filter: seq<string>, raw: bool, w: Worker): string {
    if raw then RawWorkerLine(filter, w) else DecoratedWorkerLine(filter, w)
  }

  /** `'worker %s %s %s'`: the word `worker`, then the worker's name. */
  function RawWorkerLine(filter: seq<string>, w: Worker): (r: string)
    ensures |r| > 7 + |w.name| && r[..7] == "worker " && r[7..7 + |w.name|] == w.name
  {
    var r := "worker " + w.name + " " + w.state + " " + Join(",", ListedQueues(filter, w.queueNames));
    assert r[7..7 + |w.name|] == w.name;
    r
  }

  /** `'%s %s: %s'` with the state coloured: once the colour codes are
      removed, the line reads `<name> <state>: <queues>`. */
  function DecoratedWorkerLine(filter: seq<string>, w: Worker): (r: string)
    ensures Plain(r) == Plain(w.name + " " + w.state + ": " + Join(", ", ListedQueues(filter, w.queueNames)))
  {
    var queues := Join(", ", ListedQueues(filter, w.queueNames));
    var tail := ": " + queues;
    var head := w.name + " ";
    assert w.name + " " + w.state + ": " + queues == head + (w.state + tail);
    PlainAppend(head, StateSymbol(w.state) + tail);
    PlainAppend(StateSymbol(w.state), tail);
    PlainAppend(head, w.state + tail);
    PlainAppend(w.state, tail);
    head + (StateSymbol(w.state) + tail)
  }

  /** A raw worker line starts with `worker ` and ends with the printed
      queue names joined by commas: the last column is empty when none is
      printed, and splits on commas back into the printed names when no
      name holds a space or a comma. */
  lemma RawWorkerLineQueues(filter: seq<string>, w: Worker)
    requires forall n :: n in w.queueNames ==> ' ' !in n && ',' !in n
    ensures var line := WorkerLine(filter, true, w);
      var listed := ListedQueues(filter, w.queueNames);
      && line[..7] == "worker "
      && (|listed| == 0 ==> LastField(line) == "")
      && (|listed| > 0 ==> SplitOn(',', LastField(line)) == listed)
  {
    var listed := ListedQueues(filter, w.queueNames);
    var queues := Join(",", listed);
    forall i | 0 <= i < |listed|
      ensures ' ' !in listed[i] && ',' !in listed[i]
    {
      if |filter| > 0 {
        assert multiset(Prune(filter, w.queueNames))[listed[i]] > 0;
      }
      assert listed[i] in w.queueNames;
    }
    JoinExcludes(",", listed, ' ');
    var line := WorkerLine(filter, true, w);
    assert line == ("worker " + w.name + " " + w.state) + " " + queues;
    LastFieldOfSuffix("worker " + w.name + " " + w.state, queues);
    if |listed| > 0 {
      assert "," == [','];
      SplitJoinRoundTrip(',', listed);
    }
  }

  function ByWorkerLines(filter: seq<string>, raw: bool, ws: seq<Worker>): (lines: seq<string>)
    ensures |lines| == |ws|
    ensures forall i :: 0 <= i < |ws| ==> lines[i] == WorkerLine(filter, raw, ws[i])
  {
    seq(|ws|, i requires 0 <= i < |ws| => WorkerLine(filter, raw, ws[i]))
  }

  /* ---------------------------------------------------------------------- */
  /* Grouping by queue                                                      */
  /* ---------------------------------------------------------------------- */

  predicate NoDuplicates<T(==)>(s: seq<T>) {
    forall i, j :: 0 <= i < j < |s| ==> s[i] != s[j]
  }

  /** The keys of the reverse index, in the order a `dict` built from
      `(q, [])` pairs keeps them: each name once, at its first place. */
  function Distinct(xs: seq<string>): (r: seq<string>)
    ensures NoDuplicates(r)
    ensures forall x :: x in r <==> x in xs
    ensures |r| <= |xs|
  {
    if |xs| == 0 then []
    else
      var d := Distinct(xs[..|xs| - 1]);
      var last := xs[|xs| - 1];
      assert forall x :: x in xs <==> x in xs[..|xs| - 1] || x == last;
      if last in d then d else d + [last]
  }

  /** The workers the reverse index collects under queue `q`: each worker,
      in order, once for every time it names `q`. */
  function Listeners(q: string, ws: seq<Worker>): (r: seq<Worker>)
    ensures forall w :: w in r <==> w in ws && q in w.queueNames
  {
    if |ws| == 0 then []
    else
      assert forall w :: w in ws <==> w == ws[0] || w in ws[1..];
      var k := multiset(ws[0].queueNames)[q];
      assert k > 0 <==> q in ws[0].queueNames;
      assert k > 0 ==> Repeat(ws[0], k)[0] == ws[0];
      assert forall w :: w in Repeat(ws[0], k) <==> w == ws[0] && k > 0;
      Repeat(ws[0], k) + Listeners(q, ws[1..])
  }

  /** A worker is collected under `q` once for every time it names `q`,
      and as often again for every further copy of it in `ws`. */
  lemma {:induction false} ListenersMultiplicity(q: string, ws: seq<Worker>, w: Worker)
    ensures multiset(Listeners(q, ws))[w] == multiset(ws)[w] * multiset(w.queueNames)[q]
  {
    if |ws| > 0 {
      var k := multiset(ws[0].queueNames)[q];
      var head := Repeat(ws[0], k);
      var rest := Listeners(q, ws[1..]);
      assert Listeners(q, ws) == head + rest;
      ListenersMultiplicity(q, ws[1..], w);
      RepeatCount(ws[0], k);
      assert ws == [ws[0]] + ws[1..];
      assert multiset(ws)[w] == (if w == ws[0] then 1 else 0) + multiset(ws[1..])[w];
      assert multiset(head + rest)[w] == multiset(head)[w] + multiset(rest)[w];
      if w == ws[0] {
        MulSucc(multiset(ws[1..])[w], k);
      }
    }
  }

  lemma MulSucc(a: int, k: int)
    ensures (a + 1) * k == a * k + k
  {
  }

  lemma {:induction false} RepeatCount<T>(x: T, n: nat)
    ensures forall y :: multiset(Repeat(x, n))[y] == if y == x then n else 0
  {
    if n > 0 {
      assert Repeat(x, n) == Repeat(x, n - 1) + [x];
      RepeatCount(x, n - 1);
    }
  }

  /** `'%s (%s)' % (w.name, state_symbol(w.get_state()))`. */
  function Entry(w: Worker): (r: string)
    ensures |r| >= |w.name| + 3 && r[..|w.name| + 2] == w.name + " (" && r[|r| - 1] == ')'
    ensures Plain(r) == Plain(w.name + " (" + w.state + ")")
  {
    var head := w.name + " (";
    PlainAppend(head, StateSymbol(w.state) + ")");
    PlainAppend(StateSymbol(w.state), ")");
    PlainAppend(head, w.state + ")");
    PlainAppend(w.state, ")");
    assert w.name + " (" + w.state + ")" == head + (w.state + ")");
    var r := head + (StateSymbol(w.state) + ")");
    assert r[..|head|] == head;
    r
  }

  function EntryTexts(ws: seq<Worker>): (es: seq<string>)
    ensures |es| == |ws|
    ensures forall i :: 0 <= i < |ws| ==> es[i] == Entry(ws[i])
  {
    seq(|ws|, i requires 0 <= i < |ws| => Entry(ws[i]))
  }

  /** The entries printed for queue `q`: the entry of every collected
      worker, as many times as collected, in sorted order. */
  function Entries(q: string, ws: seq<Worker>): (es: seq<string>)
    ensures Sorted(es)
    ensures multiset(es) == multiset(EntryTexts(Listeners(q, ws)))
  {
    Sort(EntryTexts(Listeners(q, ws)))
  }

  /** The colour code sorts before the letter it is compared with, as ESC
      does: a busy worker `a` comes before a worker named `a (b`. */
  lemma EntriesOrderFollowsEscape()
    ensures var wa := Worker("a", "busy", ["q"]);
      var wb := Worker("a (b", "x", ["q"]);
      Entries("q", [wa, wb]) == [Entry(wa), Entry(wb)]
  {
    var wa := Worker("a", "busy", ["q"]);
    var wb := Worker("a (b", "x", ["q"]);
    ListenersOfTwo(wa, wb);
    EntryOrder(wa, wb);
    assert EntryTexts([wa, wb]) == [Entry(wa), Entry(wb)];
    SortedUnique(Entries("q", [wa, wb]), [Entry(wa), Entry(wb)]);
  }

  lemma ListenersOfTwo(wa: Worker, wb: Worker)
    requires wa.queueNames == ["q"] && wb.queueNames == ["q"]
    ensures Listeners("q", [wa, wb]) == [wa, wb]
  {
    assert multiset(wa.queueNames)["q"] == 1;
    assert multiset(wb.queueNames)["q"] == 1;
    assert [wa, wb][1..] == [wb] && [wb][1..] == [];
    assert Repeat(wa, 1) == [wa] && Repeat(wb, 1) == [wb];
    assert Listeners("q", [wb]) == [wb] + Listeners("q", []);
  }

  lemma EntryOrder(wa: Worker, wb: Worker)
    requires wa == Worker("a", "busy", ["q"]) && wb == Worker("a (b", "x", ["q"])
    ensures Sorted([Entry(wa), Entry(wb)])
  {
    var ea := Entry(wa);
    var eb := Entry(wb);
    assert ea == "a (" + Paint(DarkRed, "busy") + ")";
    assert ea[..4] == "a (" + [Marker(DarkRed)];
    assert eb[..4] == "a (b";
    var a3 := ea[1..][1..][1..];
    var b3 := eb[1..][1..][1..];
    assert a3[0] == Marker(DarkRed) && b3[0] == 'b';
    assert LexLe(a3, b3);
    assert LexLe(ea, eb);
  }

  /** The placeholder printed for a queue nobody listens on (U+2013). */
  const Placeholder: string := "\U{2013}"

  /** `max_qname`: the longest key, 0 when there are none. */
  function MaxNameLength(keys: seq<string>): (m: nat)
    ensures forall i :: 0 <= i < |keys| ==> |keys[i]| <= m
    ensures |keys| == 0 ==> m == 0
    ensures |keys| > 0 ==> exists i :: 0 <= i < |keys| && |keys[i]| == m
  {
    if |keys| == 0 then 0
    else
      var rest := MaxNameLength(keys[1..]);
      assert forall i :: 1 <= i < |keys| ==> keys[i] == keys[1..][i - 1];
      if rest < |keys[0]| then |keys[0]| else rest
  }

  /** The worker list of a by-queue line: the placeholder exactly when
      no worker was collected under the queue. */
  function ByQueueText(q: string, ws: seq<Worker>): (r: string)
    ensures r == Placeholder <==> |Listeners(q, ws)| == 0
  {
    if |Listeners(q, ws)| > 0 then
      var es := Entries(q, ws);
      assert es[0] in multiset(EntryTexts(Listeners(q, ws)));
      var k :| 0 <= k < |Listeners(q, ws)| && EntryTexts(Listeners(q, ws))[k] == es[0];
      assert |es[0]| >= 3;
      Join(", ", es)
    else Placeholder
  }

  /** `'%s %s' % (pad(q.name + ':', max_qname + 1), queues_str)`: the name
      and a colon padded with spaces to the width, one space, then the
      entries or the placeholder. */
  function ByQueueLine(q: string, width: nat, ws: seq<Worker>): (line: string)
    ensures |q| + 1 <= width ==>
      && |line| > width
      && line[..|q| + 1] == q + ":"
      && (forall j :: |q| + 1 <= j <= width ==> line[j] == ' ')
      && line[width + 1..] == ByQueueText(q, ws)
  {
    var line := Pad(q + ":", width) + " " + ByQueueText(q, ws);
    if |q| + 1 <= width then
      PaddedColumn(q + ":", width, ByQueueText(q, ws));
      line
    else line
  }

  /** The by-queue listing: one line per distinct queue name. */
  function ByQueueLines(qnames: seq<string>, ws: seq<Worker>): (lines: seq<string>)
    ensures |lines| == |Distinct(qnames)|
  {
    var keys := Distinct(qnames);
    var width := MaxNameLength(keys) + 1;
    seq(|keys|, i requires 0 <= i < |keys| => ByQueueLine(keys[i], width, ws))
  }

  /** Every by-queue line starts with its queue name and a colon, padded
      to one column past the longest name, so that the worker lists all
      start in the same column; the list is the sorted entries of the
      collected workers, or the placeholder when there are none. */
  lemma ByQueueLayout(qnames: seq<string>, ws: seq<Worker>)
    ensures var keys := Distinct(qnames);
      var width := MaxNameLength(keys) + 1;
      var lines := ByQueueLines(qnames, ws);
      forall i :: 0 <= i < |keys| ==>
        && |lines[i]| > width
        && lines[i][..|keys[i]| + 1] == keys[i] + ":"
        && (forall j :: |keys[i]| + 1 <= j <= width ==> lines[i][j] == ' ')
        && lines[i][width + 1..] == ByQueueText(keys[i], ws)
  {
    var keys := Distinct(qnames);
    var width := MaxNameLength(keys) + 1;
    var lines := ByQueueLines(qnames, ws);
    forall i | 0 <= i < |keys|
      ensures |lines[i]| > width
      ensures lines[i][..|keys[i]| + 1] == keys[i] + ":"
      ensures forall j :: |keys[i]| + 1 <= j <= width ==> lines[i][j] == ' '
      ensures lines[i][width + 1..] == ByQueueText(keys[i], ws)
    {
      var line := ByQueueLine(keys[i], width, ws);
      assert |keys[i]| + 1 <= width;
      assert lines[i] == line;
    }
  }

  /** A worker shows up under a displayed queue iff it listens on that
      queue: workers on no filtered queue are never collected, and no
      listener of a displayed queue is lost to the filter. */
  lemma ListedUnderQueueIff(filter: seq<string>, snap: Snapshot, q: string, w: Worker)
    requires q in Names(ResolveQueues(filter, snap))
    requires w in snap.workers
    ensures w in Listeners(q, SelectWorkers(filter, snap.workers)) <==> q in w.queueNames
  {
    if |filter| > 0 {
      assert q in filter;
    }
  }

  /** `'%d workers, %d queues'`. */
  function WorkerSummary(workers: nat, queues: nat): (r: string)
    ensures var n := |NatToString(workers)|;
      var m := |NatToString(queues)|;
      && |r| == n + 10 + m + 7
      && ParseNat(r[..n]) == Some(workers)
      && r[n..n + 10] == " workers, "
      && ParseNat(r[n + 10..n + 10 + m]) == Some(queues)
      && r[n + 10 + m..] == " queues"
  {
    var a := NatToString(workers);
    var b := NatToString(queues);
    NatToStringRoundTrip(workers);
    NatToStringRoundTrip(queues);
    var r := a + " workers, " + b + " queues";
    assert r[..|a|] == a;
    assert r[|a| + 10..|a| + 10 + |b|] == b;
    r
  }

  /** `show_workers`: the selected workers, per worker or per queue, then
      (outside raw mode) a summary counting the selected workers and the
      resolved queue set, repeats of a filter name included. */
  function ShowWorkers(filter: seq<string>, raw: bool, byQueue: bool, snap: Snapshot): (lines: seq<string>)
    ensures var ws := SelectWorkers(filter, snap.workers);
      var qnames := Names(ResolveQueues(filter, snap));
      && |lines| == (if byQueue then |Distinct(qnames)| else |ws|) + (if raw then 0 else 1)
      && (!raw ==> lines[|lines| - 1] == WorkerSummary(|ws|, |qnames|))
  {
    var ws := SelectWorkers(filter, snap.workers);
    var qnames := Names(ResolveQueues(filter, snap));
    var body := if byQueue then ByQueueLines(qnames, ws) else ByWorkerLines(filter, raw, ws);
    body + (if raw then [] else [WorkerSummary(|ws|, |qnames|)])
  }

  /** What the lines before the summary are: the selected workers' lines
      in order, or the by-queue lines of the resolved queue names. */
  lemma ShowWorkersLines(filter: seq<string>, raw: bool, byQueue: bool, snap: Snapshot)
    ensures var ws := SelectWorkers(filter, snap.workers);
      var qnames := Names(ResolveQueues(filter, snap));
      var lines := ShowWorkers(filter, raw, byQueue, snap);
      && (!byQueue ==> forall i :: 0 <= i < |ws| ==> lines[i] == WorkerLine(filter, raw, ws[i]))
      && (byQueue ==> lines[..|Distinct(qnames)|] == ByQueueLines(qnames, ws))
  {
    var ws := SelectWorkers(filter, snap.workers);
    var qnames := Names(ResolveQueues(filter, snap));
    var body := if byQueue then ByQueueLines(qnames, ws) else ByWorkerLines(filter, raw, ws);
    assert ShowWorkers(filter, raw, byQueue, snap)[..|body|] == body;
  }
}
